=== FILE: README.md ===
# qbit session and request dispatch, modelled in Dafny

This project models the core of `qbit`, a Go client for the qBittorrent Web API.
The core is the logic that builds a client, logs in to the daemon, shapes GET and
POST requests, and recovers from an expired session. When a response does not
decode, the client logs in again and re-issues the request exactly once.

The network is abstracted away. A `Net.Network` value is a script. It says which
URLs fail to build a request. It gives the outcome of the n-th API request:
a send error, or a response that does or does not decode. It gives the outcome of
the n-th login request: a send error, or a response. Every operation returns its
result together with the requests it sent, in order, as a trace of effects. This
makes the number of sends and logins, termination and the choice of error provable.

Modules, leaves first:

- `Maybe`, `Octets`: option type and bytes.
- `Text`: `TrimSuffix`, `Contains` and `Join` from Go's `strings` package, each with an independent characterisation. `Split` is the inverse of `Join`; it stands for what the daemon recovers from a pipe-joined hash list.
- `Utf8`: the bytes of a Go string (`[]byte(s)`), with a decoder proving the encoding is lossless.
- `Base64`: the standard padded encoding of section 4 of RFC 4648, with a decoder and a round-trip proof. Bytes are first cut into six-bit values, and each value is then written as an alphabet character.
- `Form`: `url.Values`, including the nil map, with `Set` and `Add`.
- `Net`: requests, responses, the scripted network, effects and errors.
- `Setup`: configuration, URL normalisation and the proxy Basic-Auth header.
- `Session`: the login handshake and client construction (`newConfig`).
- `Dispatch`: request shaping and the one-shot re-login and retry (`req`).
- `Api`: `getReq`, `postReq` and the public calls built on them.

Go strings are modelled as `string` (sequences of Unicode scalar values). A Go
string that holds valid UTF-8 corresponds to one of these, and converting it to
bytes is `Utf8.Encode`. The substring, suffix and join operations agree on the
two views, because UTF-8 is self-synchronising.

Three behaviours of the code are easy to miss, and the model keeps each of them:

- Unlike API requests, the login request carries no proxy `Authorization` header. `login` sets only the form Content-Type (qbit.go:161-166). `Session.LoginRequest` states this.
- A second undecodable response triggers a second login before the decode error is returned. If that login fails, its error is returned instead (qbit.go:271-274). `Dispatch.Call` states both.
- The base URL is not checked for emptiness: an empty URL normalises to `/` (qbit.go:121).

## Model

| member | source | states |
|---|---|---|
| Setup.NormalizeUrl | qbit.go:121 | The URL always ends in `/`. It is the URL itself when it already ended in `/`, and the URL plus `/` otherwise. |
| Setup.NormalizeIdempotent | qbit.go:121 | Normalising an already normalised URL changes nothing. |
| Setup.NormalizeSlashInsensitive | qbit.go:121 | For a URL `u` without a trailing `/`, both `u` and `u + "/"` normalise to `u + "/"`, so both give the same request URLs. |
| Setup.CredentialBytes | qbit.go:124-126 | The bytes of `user:pass` are the user's bytes, one colon byte, and the password's bytes. |
| Setup.BasicAuth | qbit.go:123-129 | The header is empty exactly when both proxy credentials are empty. Otherwise it is `Basic ` plus the base 64 encoding of the UTF-8 bytes of `user:pass`, and its payload decodes back to user, colon, password. A user with an empty password still gets a header. |
| Setup.Configure | qbit.go:121-142 | The client's URL is the normalised URL, so it ends in `/`. The other configuration fields are unchanged. The proxy header is the one `Setup.BasicAuth` describes, so it is empty exactly when both proxy credentials are empty. |
| Session.LoginForm | qbit.go:156-158 | The login form has exactly the fields `username` and `password`, each holding the configured value once. |
| Session.LoginRequest | qbit.go:155-166 | The login is a POST to the base URL plus `api/v2/auth/login`, with the login form as body. Its only header is the form Content-Type, so it has no `Authorization` header. |
| Session.AcceptedIffMarker | qbit.go:176 | A login response is accepted exactly when its status is 200 and `Ok.` occurs somewhere in its body. |
| Session.Login | qbit.go:155-181 | A login sends at most one request, and none when the login URL cannot be built. It succeeds exactly when the script's response is accepted. A send failure becomes a login-transport error. A rejected response becomes an `ErrLoginFailed` error that carries the status, the login URL and the body. |
| Session.New | qbit.go:106-152 | A cookie-jar failure returns no client and sends nothing. Otherwise the client has a normalised URL and the right proxy header. Without eager login there is no error and nothing is sent. With eager login, at most one login is sent and no API request is sent. The error and the requests sent are exactly those of that login, so the error is nil exactly when the login succeeds. The client is returned even when the login fails. |
| Form.Set | qbit.go:190-192 | After `Set`, the key holds exactly the one value, every other key is unchanged, and the key set grows by the key. Writing to a nil value set panics. |
| Form.Add | qbit.go:156-158 | After `Add`, the value is appended under the key, and every other key is unchanged. Writing to a nil value set panics. |
| Form.SetIdempotent | qbit.go:255 | Setting the same key to the same value twice gives the same value set as setting it once. |
| Dispatch.Shape | qbit.go:240-263 | A POST carries the values as the body, with the form Content-Type, and leaves the query alone. A GET has no body. Its query is the values plus `filter=all`, with every other key unchanged. On a nil value set a GET panics. A URL that fails to build gives a create-request error. Every request has `Accept: application/json`. It has `Authorization` exactly when the proxy header is non-empty, and then the header equals it. |
| Dispatch.ReshapeStable | qbit.go:255 | Shaping again with the values the first shaping left behind gives the same request. |
| Dispatch.Req | qbit.go:265-283 | With `loop` set, a call sends at most two API requests and two logins; without it, at most one of each. Every API request it sends is the shaped request. Without `loop`, a shaped call sends the request and then a login only when the response does not decode, and it succeeds exactly when the request shapes and its response decodes. |
| Dispatch.RetryUnfolds | qbit.go:271-278 | After an undecodable first response and a successful login, the call is the first request, the login, then a re-issue of the same request with `loop` off. |
| Dispatch.Call | qbit.go:265-283 | A failed send is returned at once, with one request and no login. A first response that decodes succeeds with one send and no login. An undecodable first response is followed by a login. If that login fails, its error is returned and nothing more is sent. If it succeeds, the same request is re-issued, so the trace so far is the request, the login and the request again. A failed or decoded second response ends the call with nothing more sent. A second undecodable response leads to a second login and then to an error carrying the second response's status and decode error. The call succeeds exactly when the first response decodes, or when the login succeeds and the second response decodes. |
| Api.GetReqAsWritten | qbit.go:232-234 | As written, a GET passes a nil value set. It never sends a request and never succeeds. It panics exactly when the URL builds. |
| Api.EmptyGetShape | qbit.go:255-256 | A GET built from an empty value set has exactly `filter=all` as its query. |
| Api.GetReq | qbit.go:232-234 | A GET built from an empty value set never panics. Once the URL builds, the GET is sent. Every request it sends is a GET to the path under the base URL, with query exactly `filter=all` and no body. The call succeeds exactly when the URL builds and either the first response decodes, or it does not, the login after it succeeds and the re-issued request's response decodes. |
| Api.PostReq | qbit.go:236-238 | A POST never panics. Once the URL builds, the POST is sent. Every request sent is a POST to the path under the base URL. Its body is the given values, its query is untouched, and its Content-Type is the form type. The call succeeds exactly when the URL builds and either the first response decodes, or it does not, the login after it succeeds and the re-issued request's response decodes. |
| Api.CategoryForm | qbit.go:190-192 | The set-category form has exactly `category` and `hashes`. `category` holds the category. `hashes` holds exactly one string: the hashes joined by the pipe character, which is the empty string when there are no hashes. When there is at least one hash and none holds a pipe, splitting that string at the pipe gives the hashes back in order. |
| Api.SetTorrentCategory | qbit.go:189-200 | With decoding taken from the script (the corrected half, see Findings): once the URL builds, the form is sent. Every request sent is a POST of the category form to `api/v2/torrents/setCategory`, with the form Content-Type. The call succeeds exactly when the URL builds and the retry logic ends in a decoded response, so it cannot succeed when no response decodes. |
| Api.SetTorrentCategoryAsWritten | qbit.go:189-199 | As written, the decode target is a map value, so no response decodes and the call never succeeds. Every request sent is a POST of the category form to `api/v2/torrents/setCategory`. When the URL builds, both responses arrive and both logins succeed, it sends the form, a login, the form again and a second login. It then fails with a decode error carrying the second response's status. |
| Api.GetXfersAsWritten | qbit.go:223-234 | As written, listing transfers goes through `getReq`'s nil value set. It never sends a request. It panics exactly when the info URL builds, and otherwise returns the create-request error for that URL. |
| Api.GetXfers | qbit.go:223-230 | With `getReq` as corrected (`Api.GetReq`, see Findings): once the info URL builds, a GET is sent. Every request sent is a GET of `api/v2/torrents/info` with query `filter=all`, and the call never panics. It succeeds exactly when the URL builds and the retry logic ends in a decoded response. |
| Api.GetCategoriesAsWritten | qbit.go:208-215 | As written, listing categories goes through `getReq`'s nil value set. It never sends a request. It panics exactly when the categories URL builds, and otherwise returns the create-request error for that URL. |
| Api.GetCategories | qbit.go:208-215 | With `getReq` as corrected (`Api.GetReq`, see Findings): once the categories URL builds, a GET is sent. Every request sent is a GET of `api/v2/torrents/categories` with query `filter=all`, and the call never panics. It succeeds exactly when the URL builds and the retry logic ends in a decoded response. |
| Text.TrimSuffix | qbit.go:121 | Text ending with the suffix loses exactly one copy of it, so that adding the suffix back restores the text. Text not ending with it is returned unchanged. |
| Text.Join | qbit.go:192 | An empty list joins to the empty string, and a single element joins to itself. The round trip with `Split` is stated in `Text.SplitJoin`. |
| Text.ContainsIffOccurs | qbit.go:176 | The substring scan finds `sub` in `s` exactly when `sub` occurs in `s` at some position. |
| Text.SplitJoin | qbit.go:192 | Joining a non-empty list on one character, when no element holds that character, is undone by splitting on it. |
| Text.JoinSplit | qbit.go:192 | Splitting on a character and joining back on it restores the text. |
| Utf8.Encode | qbit.go:126 | A string of n characters takes between n and 4n bytes. |
| Utf8.DecodeEncode | qbit.go:126 | Decoding the UTF-8 bytes of a string gives the string back. |
| Utf8.EncodeAppend | qbit.go:124-126 | The bytes of a concatenation are the bytes of the parts, concatenated. |
| Base64.DecodeEncode | qbit.go:126 | Decoding the base 64 encoding of any bytes gives the bytes back. |
| Base64.Encode | qbit.go:126 | The encoding has four characters for every three input bytes, with a final partial group rounded up. |
| Base64.UnpackSextets | qbit.go:126 | Cutting bytes into six-bit values and joining the values back gives the bytes. |
| Base64.ValuesDigits | qbit.go:126 | Writing six-bit values as alphabet characters and reading them back gives the values. |

## Left out

- HTTP transport (`http.Client.Do`, response bodies, status text): external I/O. The scripted `Net.Network` supplies each outcome.
- Cookie jar and public-suffix list: library state with no logic in this repository. Its constructor's error is an input to `Session.New`.
- The default `http.Client` and the caller-supplied client (qbit.go:131-136): transport objects with no logic here.
- Setup.Configure: Go writes the normalised URL back into the caller's `*Config` (qbit.go:121) and the client keeps that same pointer (qbit.go:139). The caller therefore sees `URL` changed after construction, and later edits by the caller retarget the client. Go also overwrites the `Jar` of the caller's `http.Client` (qbit.go:136). The model has no shared mutable state: `Setup.Configure` returns a fresh record and leaves the caller's configuration as it was.
- Contexts, the one-minute login deadline and cancellation (qbit.go:24, 148-149): timing and concurrency, not sequential behaviour.
- JSON decoding and the `Xfer` and `Category` schemas (qbit.go:51-104): a data contract, and `Xfer` holds floating-point fields. Whether a response decodes is a script input, and decoded payloads are not returned.
- `url.Values.Encode` and query escaping: library code. Requests carry the value sets that get encoded.
- The reading of the login body, whose error is ignored (qbit.go:174): the body is whatever the script's response holds.
- Error message text: errors are structured values carrying the same fields as the formatted messages. The URL in a login failure is the login URL as built, not Go's re-rendering of the parsed URL.
- `GetXfers`, `GetCategories` and `SetTorrentCategory` without a context (qbit.go:184-186, 203-205, 218-220): pass-throughs to the context variants. Those variants are modelled under the shorter names.
- Methods other than GET and POST: the client issues no others.
- Go strings that are not valid UTF-8: strings are sequences of Unicode scalar values. Proxy credentials, configuration fields and login bodies holding arbitrary bytes cannot be represented, so `Setup.BasicAuth` and the `Ok.` search in a login body cover valid UTF-8 text only.
- Api.NonPointerDecoding: Go's JSON decoder is not modelled. Decoding into a target that is not a pointer is taken to fail for every response, with the decoder's non-pointer error, and otherwise the response is unchanged.
- Base64.Encode: the alphabet is written as character ranges following Table 1 of RFC 4648. It is not checked against Go's alphabet string, because that string is library code.

## Findings

| source | as written | input that shows it | evidently intended | confidence | as-written member | corrected member |
|---|---|---|---|---|---|---|
| qbit.go:233 | `getReq` passes a nil `url.Values`, and `req` then writes `filter` into it (qbit.go:255). Writing to a nil map panics in Go. | Any `GetXfersContext` or `GetCategoriesContext` call whose URL builds a request. | Start from an empty value set, so that the query is `filter=all` and the request is sent. | high; not executed | Api.GetReqAsWritten | Api.GetReq |
| qbit.go:225 | `GetXfersContext` lists transfers through `getReq` as written. | Any call whose info URL builds a request: it panics before sending. | Send a GET of `api/v2/torrents/info` with query `filter=all`. | high; not executed | Api.GetXfersAsWritten | Api.GetXfers |
| qbit.go:210 | `GetCategoriesContext` lists categories through `getReq` as written. | Any call whose categories URL builds a request: it panics before sending. | Send a GET of `api/v2/torrents/categories` with query `filter=all`. | high; not executed | Api.GetCategoriesAsWritten | Api.GetCategories |
| qbit.go:194 | `SetTorrentCategoryContext` decodes the response into `into`, a map value rather than a pointer. Go's JSON decoder rejects a non-pointer target, so no response ever decodes. | Any call whose URL builds, when the daemon answers and both logins succeed: it posts twice, logs in twice and returns a decode error, although the daemon applied the category. | An accepted request succeeds, with the decode outcome depending on the response as for the other calls. | medium; not executed | Api.SetTorrentCategoryAsWritten | Api.SetTorrentCategory |

=== FILE: api.dfy ===
/** The client's public calls: listing transfers and categories (GET) and
    setting the category of torrents (POST), each a fixed path under the
    base URL handed to the dispatcher. The caller's context is not
    modelled, so each call here stands for its `...Context` variant. */
module Api {
  import opened Maybe
  import opened Text
  import opened Form
  import opened Net
  import opened Setup
  import opened Session
  import opened Dispatch

  const TransfersPath: string := "api/v2/torrents/info"
  const CategoriesPath: string := "api/v2/torrents/categories"
  const SetCategoryPath: string := "api/v2/torrents/setCategory"

  /** The character that separates hashes in the set-category form. */
  const HashSeparator: char := '|'

  /** When a call whose request was sent succeeds: the first response
      decodes, or it does not, the login after it succeeds and the
      re-issued request's response decodes. */
  predicate Succeeds(q: Qbit, net: Network) {
    || Decodes(net.send(0))
    || (DecodeFails(net.send(0)) && LoginSucceeds(q, net, 0) && Decodes(net.send(1)))
  }

  /** The query every GET carries when it starts from an empty value set. */
  const FilterAll: Values := Entries(map["filter" := ["all"]])

  /** `getReq` as written: it hands the dispatcher a nil value set, and
      writing `filter` into it panics. Such a call never sends anything and
      never succeeds; it ends in a panic unless the URL already fails to
      build a request. */
  function GetReqAsWritten(q: Qbit, net: Network, path: string): (run: Run)
    ensures run.effects == []
    ensures !run.result.Ok?
    ensures net.buildError(q.config.url + path).None? <==> run.result == Panic(NilMapPanic)
  {
    Call(q, net, Get, q.config.url + path, Nil)
  }

  /** A GET prepared from an empty value set has exactly `filter=all` as its query. */
  lemma EmptyGetShape(q: Qbit, net: Network, uri: string)
    ensures Shape(q, net, Get, uri, Empty).Shaped? ==>
      Shape(q, net, Get, uri, Empty).req.query == Some(FilterAll)
  {
    var s := Shape(q, net, Get, uri, Empty);
    if s.Shaped? {
      assert Keys(s.values) == {"filter"};
      assert s.values.entries["filter"] == ["all"];
    }
  }

  /** `getReq` as evidently intended, starting from an empty value set:
      it never panics; once the URL builds, the GET is sent; every request
      it sends is a GET to the path under the base URL whose query is
      exactly `filter=all` and which has no body; and it succeeds exactly
      when the URL builds and the retry logic ends in a decoded response. */
  function GetReq(q: Qbit, net: Network, path: string): (run: Run)
    ensures !run.result.Panic?
    ensures forall i :: 0 <= i < |run.effects| && run.effects[i].ApiCall? ==>
      && run.effects[i].req.verb == Get
      && run.effects[i].req.url == q.config.url + path
      && run.effects[i].req.query == Some(FilterAll)
      && run.effects[i].req.body.None?
    ensures net.buildError(q.config.url + path).None? ==> |run.effects| >= 1 && run.effects[0].ApiCall?
    ensures run.result.Ok? <==> net.buildError(q.config.url + path).None? && Succeeds(q, net)
    ensures ApiCalls(run.effects) <= 2 && LoginCalls(run.effects) <= 2
  {
    var uri := q.config.url + path;
    EmptyGetShape(q, net, uri);
    Call(q, net, Get, uri, Empty)
  }

  /** `postReq`: it never panics; once the URL builds, the POST is sent;
      every request it sends is a POST to the path under the base URL whose
      body is the given values, form-encoded, and which leaves the query
      alone; and it succeeds exactly when the URL builds and the retry
      logic ends in a decoded response. */
  function PostReq(q: Qbit, net: Network, path: string, values: Values): (run: Run)
    ensures !run.result.Panic?
    ensures forall i :: 0 <= i < |run.effects| && run.effects[i].ApiCall? ==>
      && run.effects[i].req.verb == Post
      && run.effects[i].req.url == q.config.url + path
      && run.effects[i].req.body == Some(values)
      && run.effects[i].req.query.None?
      && "Content-Type" in run.effects[i].req.header
      && run.effects[i].req.header["Content-Type"] == FormContentType
    ensures net.buildError(q.config.url + path).None? ==> |run.effects| >= 1 && run.effects[0].ApiCall?
    ensures run.result.Ok? <==> net.buildError(q.config.url + path).None? && Succeeds(q, net)
    ensures ApiCalls(run.effects) <= 2 && LoginCalls(run.effects) <= 2
  {
    Call(q, net, Post, q.config.url + path, values)
  }

  /** The set-category form: exactly `category` and `hashes`, where
      `hashes` is the hashes joined by `|` in order; a daemon splitting it
      at `|` gets the hashes back when there is at least one and none
      holds a `|`. */
  function CategoryForm(category: string, hashes: seq<string>): (v: Values)
    ensures Keys(v) == {"category", "hashes"}
    ensures Lookup(v, "category") == [category]
    ensures |Lookup(v, "hashes")| == 1
    ensures Lookup(v, "hashes")[0] == Join(hashes, [HashSeparator])
    ensures |hashes| >= 1 && (forall i :: 0 <= i < |hashes| ==> HashSeparator !in hashes[i]) ==>
      Split(Lookup(v, "hashes")[0], HashSeparator) == hashes
  {
    var joined := Join(hashes, [HashSeparator]);
    assert |hashes| >= 1 && (forall i :: 0 <= i < |hashes| ==> HashSeparator !in hashes[i]) ==>
      Split(joined, HashSeparator) == hashes
    by {
      if |hashes| >= 1 && (forall i :: 0 <= i < |hashes| ==> HashSeparator !in hashes[i]) {
        SplitJoin(hashes, HashSeparator);
      }
    }
    Set(Set(Empty, "category", category).value, "hashes", joined).value
  }

  /** `SetTorrentCategoryContext` with its decode taken from the script:
      once the URL builds, it posts the set-category form, and it succeeds
      exactly when the retry logic ends in a decoded response. */
  function SetTorrentCategory(q: Qbit, net: Network, category: string, hashes: seq<string>): (run: Run)
    ensures forall i :: 0 <= i < |run.effects| && run.effects[i].ApiCall? ==>
      && run.effects[i].req.verb == Post
      && run.effects[i].req.url == q.config.url + SetCategoryPath
      && run.effects[i].req.body == Some(CategoryForm(category, hashes))
      && "Content-Type" in run.effects[i].req.header
      && run.effects[i].req.header["Content-Type"] == FormContentType
    ensures net.buildError(q.config.url + SetCategoryPath).None? ==> |run.effects| >= 1 && run.effects[0].ApiCall?
    ensures run.result.Ok? <==> net.buildError(q.config.url + SetCategoryPath).None? && Succeeds(q, net)
    ensures (forall n: nat :: !Decodes(net.send(n))) ==> !run.result.Ok?
    ensures ApiCalls(run.effects) <= 2 && LoginCalls(run.effects) <= 2
  {
    PostReq(q, net, SetCategoryPath, CategoryForm(category, hashes))
  }

  /** The error Go's JSON decoder gives for a decode target that is not a pointer. */
  const NonPointerTarget: string := "json: Unmarshal(non-pointer map[string]interface {})"

  /** The script as `SetTorrentCategoryContext` sees it: its decode target
      is a map value, not a pointer, so no response ever decodes, whatever
      the daemon answers. */
  function NonPointerDecoding(net: Network): (r: Network)
    ensures r.buildError == net.buildError && r.login == net.login
    ensures forall n: nat :: !Decodes(r.send(n))
    ensures forall n: nat :: r.send(n).SendFailed? <==> net.send(n).SendFailed?
    ensures forall n: nat :: r.send(n).Answered? ==> r.send(n).reply == net.send(n).reply
  {
    net.(send := (n: nat) =>
      match net.send(n)
      case SendFailed(cause) => SendFailed(cause)
      case Answered(reply, _) => Answered(reply, Undecodable(NonPointerTarget)))
  }

  /** `SetTorrentCategoryContext` as written: it never succeeds. Once the
      URL builds and the daemon answers, it posts the form, logs in, posts
      it again, logs in again and fails with a decode error, even though
      the daemon accepted the change. */
  function SetTorrentCategoryAsWritten(q: Qbit, net: Network, category: string, hashes: seq<string>): (run: Run)
    ensures !run.result.Ok?
    ensures forall i :: 0 <= i < |run.effects| && run.effects[i].ApiCall? ==>
      && run.effects[i].req.verb == Post
      && run.effects[i].req.url == q.config.url + SetCategoryPath
      && run.effects[i].req.body == Some(CategoryForm(category, hashes))
    ensures
      && net.buildError(q.config.url + SetCategoryPath).None?
      && net.send(0).Answered? && LoginSucceeds(q, net, 0)
      && net.send(1).Answered? && LoginSucceeds(q, net, 1)
      ==>
      && |run.effects| == 4
      && run.effects[0].ApiCall? && run.effects[2].ApiCall?
      && run.effects[1] == LoginCall(LoginRequest(q)) && run.effects[3] == LoginCall(LoginRequest(q))
      && run.result == Err(Decode(net.send(1).reply.status, NonPointerTarget))
  {
    SetTorrentCategory(q, NonPointerDecoding(net), category, hashes)
  }

  /** `GetXfersContext` as written: it goes through `getReq` as written,
      so it panics exactly when the info URL builds a request, and it never
      sends anything. */
  function GetXfersAsWritten(q: Qbit, net: Network): (run: Run)
    ensures run.effects == []
    ensures net.buildError(q.config.url + TransfersPath).None? <==> run.result == Panic(NilMapPanic)
    ensures net.buildError(q.config.url + TransfersPath).Some? ==>
      run.result == Err(CreateRequest(Get, net.buildError(q.config.url + TransfersPath).value))
  {
    GetReqAsWritten(q, net, TransfersPath)
  }

  /** `GetXfersContext` with `getReq` as corrected: lists transfers with a
      GET of the info path. */
  function GetXfers(q: Qbit, net: Network): (run: Run)
    ensures forall i :: 0 <= i < |run.effects| && run.effects[i].ApiCall? ==>
      && run.effects[i].req.verb == Get
      && run.effects[i].req.url == q.config.url + TransfersPath
      && run.effects[i].req.query == Some(FilterAll)
    ensures !run.result.Panic?
    ensures net.buildError(q.config.url + TransfersPath).None? ==> |run.effects| >= 1 && run.effects[0].ApiCall?
    ensures run.result.Ok? <==> net.buildError(q.config.url + TransfersPath).None? && Succeeds(q, net)
  {
    GetReq(q, net, TransfersPath)
  }

  /** `GetCategoriesContext` as written: it goes through `getReq` as
      written, so it panics exactly when the categories URL builds a
      request, and it never sends anything. */
  function GetCategoriesAsWritten(q: Qbit, net: Network): (run: Run)
    ensures run.effects == []
    ensures net.buildError(q.config.url + CategoriesPath).None? <==> run.result == Panic(NilMapPanic)
    ensures net.buildError(q.config.url + CategoriesPath).Some? ==>
      run.result == Err(CreateRequest(Get, net.buildError(q.config.url + CategoriesPath).value))
  {
    GetReqAsWritten(q, net, CategoriesPath)
  }

  /** `GetCategoriesContext` with `getReq` as corrected: lists categories
      with a GET of the categories path. */
  function GetCategories(q: Qbit, net: Network): (run: Run)
    ensures forall i :: 0 <= i < |run.effects| && run.effects[i].ApiCall? ==>
      && run.effects[i].req.verb == Get
      && run.effects[i].req.url == q.config.url + CategoriesPath
      && run.effects[i].req.query == Some(FilterAll)
    ensures !run.result.Panic?
    ensures net.buildError(q.config.url + CategoriesPath).None? ==> |run.effects| >= 1 && run.effects[0].ApiCall?
    ensures run.result.Ok? <==> net.buildError(q.config.url + CategoriesPath).None? && Succeeds(q, net)
  {
    GetReq(q, net, CategoriesPath)
  }
}

=== FILE: base64.dfy ===
/** Base 64 encoding with the standard alphabet and `=` padding, as in
    section 4 of RFC 4648 (Go's `base64.StdEncoding.EncodeToString`).
    Encoding is done in two layers: bytes are cut into six-bit values,
    and each value is written as one alphabet character. `Decode` is the
    partner that shows the encoding is lossless. */
module Base64 {
  import opened Octets
  import opened Maybe

  /** A six-bit value, one digit of the encoding. */
  type sextet = x: int | 0 <= x < 64

  /** The character for a six-bit value, following Table 1 of RFC 4648:
      `A`-`Z`, then `a`-`z`, then `0`-`9`, then `+` and `/`. */
  function Digit(v: sextet): (c: char)
    ensures c != '='
  {
    if v < 26 then ('A' as int + v) as char
    else if v < 52 then ('a' as int + (v - 26)) as char
    else if v < 62 then ('0' as int + (v - 52)) as char
    else if v == 62 then '+'
    else '/'
  }

  /** The six-bit value of an alphabet character; `None` for any other
      character, including the pad character `=`. */
  function Value(c: char): (r: Option<sextet>)
    ensures r.Some? ==> Digit(r.value) == c
  {
    if 'A' <= c <= 'Z' then Some(c as int - 'A' as int)
    else if 'a' <= c <= 'z' then Some(c as int - 'a' as int + 26)
    else if '0' <= c <= '9' then Some(c as int - '0' as int + 52)
    else if c == '+' then Some(62)
    else if c == '/' then Some(63)
    else None
  }

  /** Bytes cut into six-bit values, most significant bits first: three
      bytes give four values, and a final one or two bytes give two or
      three values, the missing low bits being zero. */
  function Sextets(b: seq<byte>): (vs: seq<sextet>)
    ensures |vs| == (4 * |b| + 2) / 3
    decreases |b|
  {
    if |b| == 0 then []
    else if |b| == 1 then [b[0] / 4, b[0] % 4 * 16]
    else if |b| == 2 then [b[0] / 4, b[0] % 4 * 16 + b[1] / 16, b[1] % 16 * 4]
    else [b[0] / 4, b[0] % 4 * 16 + b[1] / 16, b[1] % 16 * 4 + b[2] / 64, b[2] % 64] + Sextets(b[3..])
  }

  /** Each value written as its alphabet character. */
  function Digits(vs: seq<sextet>): (s: string)
    ensures |s| == |vs|
    ensures forall i :: 0 <= i < |s| ==> s[i] == Digit(vs[i])
  {
    seq(|vs|, i requires 0 <= i < |vs| => Digit(vs[i]))
  }

  /** The pad characters that bring the text to a multiple of four. */
  function Padding(n: nat): string {
    if n % 3 == 1 then "==" else if n % 3 == 2 then "=" else ""
  }

  /** The padded encoding: four characters for every three bytes, a final
      group of one or two bytes rounded up, padded with `=`. */
  function Encode(b: seq<byte>): (r: string)
    ensures |r| == 4 * ((|b| + 2) / 3)
  {
    Digits(Sextets(b)) + Padding(|b|)
  }

  /** The values of a run of alphabet characters; `None` if any is not one. */
  function Values(s: string): (r: Option<seq<sextet>>)
    ensures r.Some? ==> |r.value| == |s|
    decreases |s|
  {
    if |s| == 0 then Some([])
    else match Value(s[0])
      case None => None
      case Some(v) =>
        match Values(s[1..])
        case None => None
        case Some(rest) => Some([v] + rest)
  }

  /** Six-bit values joined back into bytes, four values to three bytes,
      a final two or three values to one or two bytes. */
  function Unpack(vs: seq<sextet>): Option<seq<byte>>
    decreases |vs|
  {
    if |vs| == 0 then Some([])
    else if |vs| == 1 then None
    else if |vs| == 2 then Some([(vs[0] as int) * 4 + (vs[1] as int) / 16])
    else if |vs| == 3 then Some([(vs[0] as int) * 4 + (vs[1] as int) / 16, (vs[1] as int) % 16 * 16 + (vs[2] as int) / 4])
    else
      match Unpack(vs[4..])
      case None => None
      case Some(rest) =>
        Some([(vs[0] as int) * 4 + (vs[1] as int) / 16, (vs[1] as int) % 16 * 16 + (vs[2] as int) / 4, (vs[2] as int) % 4 * 64 + (vs[3] as int)] + rest)
  }

  /** Text with its trailing pad characters (at most two) removed. */
  function Unpad(s: string): string {
    if |s| >= 2 && s[|s| - 2..] == "==" then s[..|s| - 2]
    else if |s| >= 1 && s[|s| - 1] == '=' then s[..|s| - 1]
    else s
  }

  /** Reads an encoding back into bytes; `None` for text that is not one. */
  function Decode(s: string): Option<seq<byte>> {
    if |s| % 4 != 0 then None
    else match Values(Unpad(s))
      case None => None
      case Some(vs) => Unpack(vs)
  }

  lemma ValueDigit(v: sextet)
    ensures Value(Digit(v)) == Some(v)
  {
  }

  /** Writing values as characters and reading them back gives the values. */
  lemma {:induction false} ValuesDigits(vs: seq<sextet>)
    ensures Values(Digits(vs)) == Some(vs)
    decreases |vs|
  {
    if |vs| > 0 {
      var s := Digits(vs);
      ValueDigit(vs[0]);
      assert s[1..] == Digits(vs[1..]);
      ValuesDigits(vs[1..]);
      assert [vs[0]] + vs[1..] == vs;
    }
  }

  /** One final byte survives being cut into two values. */
  lemma UnpackOne(b0: byte)
    ensures Unpack([b0 / 4, b0 % 4 * 16]) == Some([b0])
  {
  }

  /** Two final bytes survive being cut into three values. */
  lemma UnpackTwo(b0: byte, b1: byte)
    ensures Unpack([b0 / 4, b0 % 4 * 16 + b1 / 16, b1 % 16 * 4]) == Some([b0, b1])
  {
    var v1 := b0 % 4 * 16 + b1 / 16;
    assert v1 / 16 == b0 % 4 && v1 % 16 == b1 / 16;
    assert b1 % 16 * 4 / 4 == b1 % 16;
  }

  /** Three bytes survive being cut into four values. */
  lemma UnpackThree(b0: byte, b1: byte, b2: byte)
    ensures
      var v1 := b0 % 4 * 16 + b1 / 16;
      var v2 := b1 % 16 * 4 + b2 / 64;
      && b0 / 4 * 4 + v1 / 16 == b0
      && v1 % 16 * 16 + v2 / 4 == b1
      && v2 % 4 * 64 + b2 % 64 == b2
  {
    var v1 := b0 % 4 * 16 + b1 / 16;
    var v2 := b1 % 16 * 4 + b2 / 64;
    assert v1 / 16 == b0 % 4 && v1 % 16 == b1 / 16;
    assert v2 / 4 == b1 % 16 && v2 % 4 == b2 / 64;
  }

  /** Cutting bytes into values and joining them back gives the bytes. */
  lemma {:induction false} UnpackSextets(b: seq<byte>)
    ensures Unpack(Sextets(b)) == Some(b)
    decreases |b|
  {
    if |b| == 1 {
      UnpackOne(b[0]);
      assert [b[0]] == b;
    } else if |b| == 2 {
      UnpackTwo(b[0], b[1]);
      assert [b[0], b[1]] == b;
    } else if |b| >= 3 {
      var vs := Sextets(b);
      UnpackThree(b[0], b[1], b[2]);
      assert vs[4..] == Sextets(b[3..]);
      UnpackSextets(b[3..]);
      assert [b[0], b[1], b[2]] + b[3..] == b;
    }
  }

  /** Removing the padding leaves exactly the alphabet characters. */
  lemma UnpadEncode(b: seq<byte>)
    ensures Unpad(Encode(b)) == Digits(Sextets(b))
  {
    var d := Digits(Sextets(b));
    var e := Encode(b);
    if |b| % 3 == 1 {
      assert e[..|e| - 2] == d;
    } else if |b| % 3 == 2 {
      assert e[..|e| - 1] == d;
      if |e| >= 2 {
        assert e[|e| - 2] == d[|d| - 1];
        assert e[|e| - 2..] != "==";
      }
    } else {
      assert e == d;
      if |d| >= 1 {
        assert d[|d| - 1] != '=';
        if |d| >= 2 {
          assert d[|d| - 2..] != "==";
        }
      }
    }
  }

  /** Encoding and then decoding gives the bytes back. */
  lemma DecodeEncode(b: seq<byte>)
    ensures Decode(Encode(b)) == Some(b)
  {
    var e := Encode(b);
    var vs := Sextets(b);
    assert |e| % 4 == 0 by {
      var k := (|b| + 2) / 3;
      assert |e| == 4 * k;
    }
    UnpadEncode(b);
    ValuesDigits(vs);
    assert Values(Unpad(e)) == Some(vs);
    UnpackSextets(b);
  }
}

=== FILE: dispatch.dfy ===
/** Request dispatch: shaping a GET or POST, sending it, and the one-shot
    recovery that logs in again and re-issues the request when the
    response does not decode. */
module Dispatch {
  import opened Maybe
  import opened Form
  import opened Net
  import opened Setup
  import opened Session

  /** The message Go's run time panics with when a nil map is written to. */
  const NilMapPanic: string := "assignment to entry in nil map"

  /** The outcome of preparing a request: the request together with the
      form values as they stand afterwards (a GET writes `filter` into the
      caller's map), a build error, or a panic. */
  datatype Shaping =
    | Shaped(req: Request, values: Values)
    | ShapeFailed(err: Error)
    | ShapePanicked(reason: string)

  /** Prepares a request. A POST carries the values as a form body with the
      form Content-Type; a GET carries no body, and its query is the values
      with `filter` set to `all`, which panics when the values are a nil map.
      Every request asks for JSON and carries the proxy header exactly when
      there is one. */
  function Shape(q: Qbit, net: Network, verb: Method, uri: string, val: Values): (s: Shaping)
    ensures s.ShapeFailed? <==> net.buildError(uri).Some?
    ensures s.ShapeFailed? ==> s.err == CreateRequest(verb, net.buildError(uri).value)
    ensures s.ShapePanicked? <==> net.buildError(uri).None? && verb == Get && val.Nil?
    ensures s.ShapePanicked? ==> s.reason == NilMapPanic
    ensures s.Shaped? ==>
      && s.req.verb == verb && s.req.url == uri
      && "Accept" in s.req.header && s.req.header["Accept"] == JsonMediaType
      && ("Authorization" in s.req.header <==> q.auth != "")
      && (q.auth != "" ==> s.req.header["Authorization"] == q.auth)
    ensures s.Shaped? && verb == Post ==>
      && s.req.body == Some(val) && s.req.query.None? && s.values == val
      && s.req.header.Keys == {"Accept", "Content-Type"} + (if q.auth != "" then {"Authorization"} else {})
      && s.req.header["Content-Type"] == FormContentType
    ensures s.Shaped? && verb == Get ==>
      && s.req.body.None? && s.req.query == Some(s.values)
      && Lookup(s.values, "filter") == ["all"]
      && Keys(s.values) == Keys(val) + {"filter"}
      && (forall k :: k != "filter" ==> Lookup(s.values, k) == Lookup(val, k))
      && s.req.header.Keys == {"Accept"} + (if q.auth != "" then {"Authorization"} else {})
  {
    if net.buildError(uri).Some? then ShapeFailed(CreateRequest(verb, net.buildError(uri).value))
    else
      var signed := map["Accept" := JsonMediaType] + (if q.auth != "" then map["Authorization" := q.auth] else map[]);
      match verb
      case Post =>
        Shaped(Request(Post, uri, None, Some(val), signed["Content-Type" := FormContentType]), val)
      case Get =>
        match Set(val, "filter", "all")
        case None => ShapePanicked(NilMapPanic)
        case Some(filtered) =>
          Shaped(Request(Get, uri, Some(filtered), None, signed), filtered)
  }

  /** Shaping again with the values a first shaping left behind gives the
      same request, so a re-issued request is the original one. */
  lemma ReshapeStable(q: Qbit, net: Network, verb: Method, uri: string, val: Values)
    requires Shape(q, net, verb, uri, val).Shaped?
    ensures Shape(q, net, verb, uri, Shape(q, net, verb, uri, val).values) == Shape(q, net, verb, uri, val)
  {
    if verb == Get {
      SetIdempotent(val, "filter", "all");
    }
  }

  /** The request dispatcher. `loop` allows one re-issue; `sent` and
      `logged` count the API and login requests already sent, so they pick
      this call's outcomes out of the script. A failed send is returned at
      once; an undecodable response triggers a login, whose error is
      returned as is; otherwise the request is re-issued once (with the
      values the first attempt left behind), and an undecodable response
      after that is reported with its status. */
  function Req(q: Qbit, net: Network, verb: Method, uri: string, val: Values, loop: bool, sent: nat, logged: nat): (run: Run)
    ensures ApiCalls(run.effects) <= (if loop then 2 else 1)
    ensures LoginCalls(run.effects) <= (if loop then 2 else 1)
    ensures !Shape(q, net, verb, uri, val).Shaped? ==> run.effects == []
    ensures Shape(q, net, verb, uri, val).Shaped? ==> OnlyIssues(run.effects, Shape(q, net, verb, uri, val).req)
    ensures !loop ==>
      (run.result.Ok? <==> Shape(q, net, verb, uri, val).Shaped? && Decodes(net.send(sent)))
    ensures !loop && Shape(q, net, verb, uri, val).Shaped? ==>
      run.effects == [ApiCall(Shape(q, net, verb, uri, val).req)] +
        (if DecodeFails(net.send(sent)) then Login(q, net, logged).effects else [])
    decreases loop
  {
    match Shape(q, net, verb, uri, val)
    case ShapeFailed(e) => Run(Err(e), [])
    case ShapePanicked(why) => Run(Panic(why), [])
    case Shaped(r, after) =>
      var first := [ApiCall(r)];
      match net.send(sent)
      case SendFailed(cause) => Run(Err(Transport(verb, cause)), first)
      case Answered(reply, Decoded) => Run(Ok, first)
      case Answered(reply, Undecodable(cause)) =>
        var relogin := Login(q, net, logged);
        var upToLogin := first + relogin.effects;
        CallsAppend(first, relogin.effects);
        IssuesAppend(first, relogin.effects, r);
        if relogin.err.Some? then Run(Err(relogin.err.value), upToLogin)
        else if loop then
          var retry := Req(q, net, verb, uri, after, false, sent + 1, logged + LoginCalls(relogin.effects));
          ReshapeStable(q, net, verb, uri, val);
          CallsAppend(upToLogin, retry.effects);
          IssuesAppend(upToLogin, retry.effects, r);
          Run(retry.result, upToLogin + retry.effects)
        else Run(Err(Decode(reply.status, cause)), upToLogin)
  }

  /** The first response of a call did not decode and the login after it
      succeeded, so the request is re-issued. */
  predicate Retried(q: Qbit, net: Network, verb: Method, uri: string, val: Values) {
    Shape(q, net, verb, uri, val).Shaped? && DecodeFails(net.send(0)) && LoginSucceeds(q, net, 0)
  }

  /** After a first undecodable response and a successful login, the call
      is the re-issue of the same request, with no further re-issue allowed. */
  lemma RetryUnfolds(q: Qbit, net: Network, verb: Method, uri: string, val: Values)
    requires Retried(q, net, verb, uri, val)
    ensures
      var s := Shape(q, net, verb, uri, val);
      var retry := Req(q, net, verb, uri, s.values, false, 1, 1);
      && Req(q, net, verb, uri, val, true, 0, 0) == Run(retry.result, [ApiCall(s.req), LoginCall(LoginRequest(q))] + retry.effects)
      && Shape(q, net, verb, uri, s.values) == s
  {
    ReshapeStable(q, net, verb, uri, val);
  }

  /** What a call that is not re-issued sends and returns: it ends with
      its first request, or with the login after it when that login fails. */
  lemma FirstRun(q: Qbit, net: Network, verb: Method, uri: string, val: Values)
    requires !Retried(q, net, verb, uri, val)
    ensures
      var s := Shape(q, net, verb, uri, val);
      var run := Req(q, net, verb, uri, val, true, 0, 0);
      && (s.ShapeFailed? ==> run == Run(Err(s.err), []))
      && (s.ShapePanicked? ==> run == Run(Panic(NilMapPanic), []))
      && (s.Shaped? && net.send(0).SendFailed? ==>
            run == Run(Err(Transport(verb, net.send(0).cause)), [ApiCall(s.req)]))
      && (s.Shaped? && Decodes(net.send(0)) ==> run == Run(Ok, [ApiCall(s.req)]))
      && (s.Shaped? && DecodeFails(net.send(0)) ==>
            && run.result == Err(Login(q, net, 0).err.value)
            && run.effects == [ApiCall(s.req)] + Login(q, net, 0).effects)
      && (run.result.Ok? <==> s.Shaped? && Decodes(net.send(0)))
  {
  }

  /** What a re-issued call sends and returns: the request, the login, the
      request again, and a second login only when the second response does
      not decode; the outcome is then decided by the second response. */
  lemma RetriedRun(q: Qbit, net: Network, verb: Method, uri: string, val: Values)
    requires Retried(q, net, verb, uri, val)
    ensures
      var r := Shape(q, net, verb, uri, val).req;
      var run := Req(q, net, verb, uri, val, true, 0, 0);
      && run.effects == [ApiCall(r), LoginCall(LoginRequest(q)), ApiCall(r)] +
           (if DecodeFails(net.send(1)) then Login(q, net, 1).effects else [])
      && ApiCalls(run.effects) == 2
      && (DecodeFails(net.send(1)) && LoginSucceeds(q, net, 1) ==> LoginCalls(run.effects) == 2)
      && (net.send(1).SendFailed? ==> run.result == Err(Transport(verb, net.send(1).cause)))
      && (DecodeFails(net.send(1)) && !LoginSucceeds(q, net, 1) ==>
            run.result == Err(Login(q, net, 1).err.value))
      && (DecodeFails(net.send(1)) && LoginSucceeds(q, net, 1) ==>
            run.result == Err(Decode(net.send(1).reply.status, net.send(1).decoding.cause)))
      && (run.result.Ok? <==> Decodes(net.send(1)))
  {
    var s := Shape(q, net, verb, uri, val);
    RetryUnfolds(q, net, verb, uri, val);
    var retry := Req(q, net, verb, uri, s.values, false, 1, 1);
    var tail := if DecodeFails(net.send(1)) then Login(q, net, 1).effects else [];
    assert retry.effects == [ApiCall(s.req)] + tail;
    var head := [ApiCall(s.req), LoginCall(LoginRequest(q)), ApiCall(s.req)];
    assert [ApiCall(s.req), LoginCall(LoginRequest(q))] + retry.effects == head + tail;
    CallsAppend(head, tail);
  }

  /** A call as `getReq` and `postReq` make it: one re-issue allowed, and
      the first outcomes of the script. At most two API requests and two
      logins go out. A failed send ends the call at once. A response that
      decodes ends it successfully without any login. An undecodable
      response is followed by a login; a failed login ends the call with
      that login's error; a successful one re-issues the identical request,
      and if that response does not decode either, a second login is made
      and the call fails with the second response's status and decode
      error. The call succeeds exactly when the first response decodes, or
      the first does not, the login succeeds and the second one decodes. */
  function Call(q: Qbit, net: Network, verb: Method, uri: string, val: Values): (run: Run)
    ensures ApiCalls(run.effects) <= 2 && LoginCalls(run.effects) <= 2
    ensures !Shape(q, net, verb, uri, val).Shaped? ==> run.effects == []
    ensures Shape(q, net, verb, uri, val).Shaped? ==> OnlyIssues(run.effects, Shape(q, net, verb, uri, val).req)
    ensures Shape(q, net, verb, uri, val).ShapeFailed? ==>
      run == Run(Err(Shape(q, net, verb, uri, val).err), [])
    ensures Shape(q, net, verb, uri, val).ShapePanicked? ==>
      run == Run(Panic(NilMapPanic), [])
    ensures Shape(q, net, verb, uri, val).Shaped? && net.send(0).SendFailed? ==>
      run == Run(Err(Transport(verb, net.send(0).cause)), [ApiCall(Shape(q, net, verb, uri, val).req)])
    ensures Shape(q, net, verb, uri, val).Shaped? && Decodes(net.send(0)) ==>
      run == Run(Ok, [ApiCall(Shape(q, net, verb, uri, val).req)])
    ensures Shape(q, net, verb, uri, val).Shaped? && DecodeFails(net.send(0)) && !LoginSucceeds(q, net, 0) ==>
      && run.result == Err(Login(q, net, 0).err.value)
      && run.effects == [ApiCall(Shape(q, net, verb, uri, val).req)] + Login(q, net, 0).effects
    ensures Retried(q, net, verb, uri, val) ==> ApiCalls(run.effects) == 2
    ensures Retried(q, net, verb, uri, val) ==>
      run.effects ==
        [ApiCall(Shape(q, net, verb, uri, val).req), LoginCall(LoginRequest(q)), ApiCall(Shape(q, net, verb, uri, val).req)] +
        (if DecodeFails(net.send(1)) then Login(q, net, 1).effects else [])
    ensures Retried(q, net, verb, uri, val) && net.send(1).SendFailed? ==>
      run.result == Err(Transport(verb, net.send(1).cause))
    ensures Retried(q, net, verb, uri, val) && DecodeFails(net.send(1)) && !LoginSucceeds(q, net, 1) ==>
      run.result == Err(Login(q, net, 1).err.value)
    ensures Retried(q, net, verb, uri, val) && DecodeFails(net.send(1)) && LoginSucceeds(q, net, 1) ==>
      && run.result == Err(Decode(net.send(1).reply.status, net.send(1).decoding.cause))
      && LoginCalls(run.effects) == 2
    ensures run.result.Ok? <==>
      Shape(q, net, verb, uri, val).Shaped? &&
      (Decodes(net.send(0)) || (Retried(q, net, verb, uri, val) && Decodes(net.send(1))))
  {
    if Retried(q, net, verb, uri, val) then
      RetriedRun(q, net, verb, uri, val);
      Req(q, net, verb, uri, val, true, 0, 0)
    else
      FirstRun(q, net, verb, uri, val);
      Req(q, net, verb, uri, val, true, 0, 0)
  }

}

=== FILE: form.dfy ===
/** Go's `url.Values`: form fields, each key holding a list of values.
    How a value set is percent-encoded (`Values.Encode`) is a library
    matter this model leaves abstract: requests carry the values that are
    encoded, not the encoded text. */
module Form {
  import opened Maybe

  /** `Nil` is Go's nil map: it can be read, but writing to it panics. */
  datatype Values = Nil | Entries(entries: map<string, seq<string>>)

  /** A fresh, writable, empty value set (`url.Values{}` or `make(url.Values)`). */
  const Empty: Values := Entries(map[])

  /** `v[key]`: the values under `key`, empty when the key is absent or the map is nil. */
  function Lookup(v: Values, key: string): seq<string> {
    if v.Entries? && key in v.entries then v.entries[key] else []
  }

  /** The keys present. */
  function Keys(v: Values): set<string> {
    if v.Entries? then v.entries.Keys else {}
  }

  /** `Values.Set`: `key` now holds exactly `value` and every other key is
      untouched; `None` stands for the run-time panic of writing to a nil map. */
  function Set(v: Values, key: string, value: string): (r: Option<Values>)
    ensures r.None? <==> v.Nil?
    ensures r.Some? ==> Lookup(r.value, key) == [value]
    ensures r.Some? ==> forall k :: k != key ==> Lookup(r.value, k) == Lookup(v, k)
    ensures r.Some? ==> r.value.Entries? && Keys(r.value) == Keys(v) + {key}
  {
    match v
    case Nil => None
    case Entries(m) => Some(Entries(m[key := [value]]))
  }

  /** `Values.Add`: `value` is appended to the values under `key`; every
      other key is untouched; a nil map panics. */
  function Add(v: Values, key: string, value: string): (r: Option<Values>)
    ensures r.None? <==> v.Nil?
    ensures r.Some? ==> Lookup(r.value, key) == Lookup(v, key) + [value]
    ensures r.Some? ==> forall k :: k != key ==> Lookup(r.value, k) == Lookup(v, k)
    ensures r.Some? ==> r.value.Entries? && Keys(r.value) == Keys(v) + {key}
  {
    match v
    case Nil => None
    case Entries(m) => Some(Entries(m[key := Lookup(v, key) + [value]]))
  }

  /** Setting a key a second time to the same value changes nothing, so a
      request that sets a field and is then re-issued sends the same fields. */
  lemma SetIdempotent(v: Values, key: string, value: string)
    requires v.Entries?
    ensures Set(Set(v, key, value).value, key, value) == Set(v, key, value)
  {
    var m := v.entries[key := [value]];
    assert m[key := [value]] == m;
  }
}

=== FILE: maybe.dfy ===
/** Optional values, used for Go's nil-or-value returns (a nil error, a
    missing parse error, a nil map entry). */
module Maybe {
  datatype Option<+T> = None | Some(value: T)
}

=== FILE: net.dfy ===
/** The client's view of the network. The HTTP transport is not modelled:
    a `Network` value is a script that says, for the n-th API request and
    the n-th login request the client sends, what comes back. Requests are
    recorded, in order, as effects. */
module Net {
  import opened Maybe
  import opened Form

  /** The two HTTP methods the client issues. */
  datatype Method = Get | Post

  /** A request as handed to the HTTP client. `query` is `Some(v)` when the
      raw query string is replaced by the encoding of `v`, and `None` when
      the URL's own query is kept; `body` is `Some(v)` when the body is the
      encoding of `v`, and `None` when there is no body. */
  datatype Request = Request(
    verb: Method,
    url: string,
    query: Option<Values>,
    body: Option<Values>,
    header: map<string, string>)

  const FormContentType: string := "application/x-www-form-urlencoded"
  const JsonMediaType: string := "application/json"

  /** An HTTP response: numeric status code, status line text (`"200 OK"`) and body. */
  datatype Reply = Reply(code: int, status: string, body: string)

  /** Whether the response body decoded as JSON into the caller's target. */
  datatype Decoding = Decoded | Undecodable(cause: string)

  /** What became of one API request. */
  datatype SendOutcome =
    | SendFailed(cause: string)
    | Answered(reply: Reply, decoding: Decoding)

  /** What became of one login request. */
  datatype LoginOutcome =
    | LoginSendFailed(cause: string)
    | LoginAnswered(reply: Reply)

  /** The scripted environment: the error, if any, that building a request
      for a URL gives (a URL that does not parse); the outcome of the n-th
      API request; the outcome of the n-th login request. */
  datatype Network = Network(
    buildError: string -> Option<string>,
    send: nat -> SendOutcome,
    login: nat -> LoginOutcome)

  predicate Decodes(o: SendOutcome) {
    o.Answered? && o.decoding.Decoded?
  }

  predicate DecodeFails(o: SendOutcome) {
    o.Answered? && o.decoding.Undecodable?
  }

  /** A request that went out on the wire. */
  datatype Effect = ApiCall(req: Request) | LoginCall(req: Request)

  function ApiCalls(t: seq<Effect>): nat
    decreases |t|
  {
    if |t| == 0 then 0 else (if t[0].ApiCall? then 1 else 0) + ApiCalls(t[1..])
  }

  function LoginCalls(t: seq<Effect>): nat
    decreases |t|
  {
    if |t| == 0 then 0 else (if t[0].LoginCall? then 1 else 0) + LoginCalls(t[1..])
  }

  /** Every API request in the trace is `r`: a re-issued request is the original one. */
  predicate OnlyIssues(t: seq<Effect>, r: Request) {
    forall i :: 0 <= i < |t| && t[i].ApiCall? ==> t[i].req == r
  }

  /** Joining two traces that issue only `r` gives a trace that issues only `r`. */
  lemma IssuesAppend(a: seq<Effect>, b: seq<Effect>, r: Request)
    requires OnlyIssues(a, r) && OnlyIssues(b, r)
    ensures OnlyIssues(a + b, r)
  {
    forall i | 0 <= i < |a + b| && (a + b)[i].ApiCall?
      ensures (a + b)[i].req == r
    {
      if i >= |a| {
        assert (a + b)[i] == b[i - |a|];
      }
    }
  }

  /** Counting requests distributes over joining traces. */
  lemma {:induction false} CallsAppend(a: seq<Effect>, b: seq<Effect>)
    ensures ApiCalls(a + b) == ApiCalls(a) + ApiCalls(b)
    ensures LoginCalls(a + b) == LoginCalls(a) + LoginCalls(b)
    decreases |a|
  {
    if |a| == 0 {
      assert a + b == b;
    } else {
      assert (a + b)[1..] == a[1..] + b;
      CallsAppend(a[1..], b);
    }
  }

  /** The errors the client returns, one per place the client builds one. */
  datatype Error =
    | CookieJar(cause: string)                          // cookie jar construction failed
    | CreateLoginRequest(cause: string)                 // login request could not be built
    | LoginTransport(cause: string)                     // login request could not be sent
    | LoginFailed(status: string, url: string, body: string) // wraps ErrLoginFailed
    | CreateRequest(verb: Method, cause: string)      // API request could not be built
    | Transport(verb: Method, cause: string)          // API request could not be sent
    | Decode(status: string, cause: string)             // response still undecodable after re-login

  /** `errors.Is(err, ErrLoginFailed)`. */
  predicate IsLoginFailed(e: Error) {
    e.LoginFailed?
  }

  /** How a call ends: nil error, an error, or a run-time panic. */
  datatype Outcome = Ok | Err(error: Error) | Panic(reason: string)

  /** The outcome of a call together with the requests it sent. */
  datatype Run = Run(result: Outcome, effects: seq<Effect>)
}

=== FILE: octets.dfy ===
/** Bytes, as Go's `byte` (an unsigned 8-bit integer). */
module Octets {

  /** One byte; kept as a subset of `int` so byte arithmetic is plain arithmetic. */
  type byte = x: int | 0 <= x < 256

  /** The ASCII code of a character below 128, as one byte. */
  function Ascii(c: char): (b: byte)
    requires c as int < 128
    ensures b as char == c
  {
    c as int
  }
}

=== FILE: session.dfy ===
/** The login handshake and client construction. A login posts the
    daemon credentials as a form to a fixed path; it succeeds only when the
    daemon answers `200` and the body contains the marker `Ok.`. */
module Session {
  import opened Maybe
  import opened Text
  import opened Form
  import opened Net
  import opened Setup

  const LoginPath: string := "api/v2/auth/login"

  /** The marker a successful login response body contains. */
  const SuccessMarker: string := "Ok."

  const StatusOK: int := 200

  function LoginUrl(q: Qbit): string {
    q.config.url + LoginPath
  }

  /** The login form: exactly the fields `username` and `password`, each
      holding the configured value once. */
  function LoginForm(c: Config): (v: Values)
    ensures v.Entries? && Keys(v) == {"username", "password"}
    ensures Lookup(v, "username") == [c.user] && Lookup(v, "password") == [c.pass]
  {
    Add(Add(Empty, "username", c.user).value, "password", c.pass).value
  }

  /** The login request: a form POST to the login path under the base URL,
      whose only header is the form Content-Type. In particular it carries
      neither the proxy `Authorization` header nor `Accept`. */
  function LoginRequest(q: Qbit): (r: Request)
    ensures r.verb == Post && r.url == q.config.url + LoginPath && r.query.None?
    ensures r.body == Some(LoginForm(q.config))
    ensures r.header.Keys == {"Content-Type"} && r.header["Content-Type"] == FormContentType
    ensures "Authorization" !in r.header
  {
    Request(Post, LoginUrl(q), None, Some(LoginForm(q.config)), map["Content-Type" := FormContentType])
  }

  /** The success test on a login response: status 200 and the marker in
      the body. Both are needed; a 200 page without the marker is a failed
      login. */
  predicate Accepted(reply: Reply) {
    reply.code == StatusOK && Contains(reply.body, SuccessMarker)
  }

  /** A login response is accepted exactly when its status is 200 and the
      marker occurs at some position of its body. */
  lemma AcceptedIffMarker(reply: Reply)
    ensures Accepted(reply) <==> reply.code == StatusOK && exists i :: OccursAt(reply.body, SuccessMarker, i)
  {
    ContainsIffOccurs(reply.body, SuccessMarker);
  }

  /** The result of one login: nil or an error, and the requests sent. */
  datatype LoginRun = LoginRun(err: Option<Error>, effects: seq<Effect>)

  /** Whether the login that is the `n`-th one sent succeeds under `net`. */
  predicate LoginSucceeds(q: Qbit, net: Network, n: nat) {
    && net.buildError(LoginUrl(q)).None?
    && net.login(n).LoginAnswered?
    && Accepted(net.login(n).reply)
  }

  /** One login, which is the `n`-th login request the client sends. */
  function Login(q: Qbit, net: Network, n: nat): (r: LoginRun)
    ensures r.effects == [] || r.effects == [LoginCall(LoginRequest(q))]
    ensures r.effects == [] <==> net.buildError(LoginUrl(q)).Some?
    ensures r.err.None? <==> LoginSucceeds(q, net, n)
    ensures net.buildError(LoginUrl(q)).Some? ==>
      r.err == Some(CreateLoginRequest(net.buildError(LoginUrl(q)).value))
    ensures r.effects != [] && net.login(n).LoginSendFailed? ==>
      r.err == Some(LoginTransport(net.login(n).cause))
    ensures r.effects != [] && net.login(n).LoginAnswered? && !Accepted(net.login(n).reply) ==>
      r.err == Some(LoginFailed(net.login(n).reply.status, LoginUrl(q), net.login(n).reply.body))
    ensures r.err.Some? && IsLoginFailed(r.err.value) ==>
      r.err.value.url == q.config.url + LoginPath && net.login(n).LoginAnswered? &&
      (net.login(n).reply.code != StatusOK || !Contains(net.login(n).reply.body, SuccessMarker))
  {
    match net.buildError(LoginUrl(q))
    case Some(cause) => LoginRun(Some(CreateLoginRequest(cause)), [])
    case None =>
      var sent := [LoginCall(LoginRequest(q))];
      match net.login(n)
      case LoginSendFailed(cause) => LoginRun(Some(LoginTransport(cause)), sent)
      case LoginAnswered(reply) =>
        if Accepted(reply) then LoginRun(None, sent)
        else LoginRun(Some(LoginFailed(reply.status, LoginUrl(q), reply.body)), sent)
  }

  /** What construction gives back: the client (absent when construction
      failed outright), an error, and the requests sent. */
  datatype Construction = Construction(client: Option<Qbit>, err: Option<Error>, effects: seq<Effect>)

  /** Builds a client. `jarError` is the error the cookie jar constructor
      gives, if any; `eager` says whether to log in at once. When the eager
      login fails, the client is still returned, together with the error. */
  function New(c: Config, eager: bool, jarError: Option<string>, net: Network): (r: Construction)
    ensures jarError.Some? ==> r == Construction(None, Some(CookieJar(jarError.value)), [])
    ensures jarError.None? ==> r.client == Some(Configure(c))
    ensures jarError.None? ==> EndsWith(r.client.value.config.url, "/")
    ensures jarError.None? ==> (r.client.value.auth == "" <==> c.httpUser == "" && c.httpPass == "")
    ensures jarError.None? && !eager ==> r.err.None? && r.effects == []
    ensures jarError.None? && eager ==>
      (r.err.None? <==> LoginSucceeds(Configure(c), net, 0)) &&
      ApiCalls(r.effects) == 0 && LoginCalls(r.effects) <= 1
    ensures jarError.None? && eager ==>
      r.err == Login(Configure(c), net, 0).err && r.effects == Login(Configure(c), net, 0).effects
  {
    match jarError
    case Some(cause) => Construction(None, Some(CookieJar(cause)), [])
    case None =>
      var q := Configure(c);
      if !eager then Construction(Some(q), None, [])
      else
        var login := Login(q, net, 0);
        Construction(Some(q), login.err, login.effects)
  }
}

=== FILE: setup.dfy ===
/** Construction-time normalisation of the client configuration: the base
    URL gets exactly one trailing slash, and the reverse-proxy Basic-Auth
    header is computed once. */
module Setup {
  import opened Octets
  import opened Maybe
  import opened Text
  import Utf8
  import Base64

  /** What the caller supplies: base URL, the daemon's own login
      credentials, and the optional reverse-proxy credentials. The caller's
      HTTP client object belongs to the transport and is not modelled. */
  datatype Config = Config(url: string, user: string, pass: string, httpUser: string, httpPass: string)

  /** A constructed client: its configuration (URL normalised) and the
      precomputed `Authorization` value, empty when there is none. */
  datatype Qbit = Qbit(config: Config, auth: string)

  /** Trims one trailing `/` and appends one. The result ends in `/`, and
      is the URL itself when it already did, or the URL plus `/` otherwise. */
  function NormalizeUrl(u: string): (r: string)
    ensures EndsWith(r, "/")
    ensures EndsWith(u, "/") ==> r == u
    ensures !EndsWith(u, "/") ==> r == u + "/"
  {
    TrimSuffix(u, "/") + "/"
  }

  /** Normalising twice is normalising once. */
  lemma NormalizeIdempotent(u: string)
    ensures NormalizeUrl(NormalizeUrl(u)) == NormalizeUrl(u)
  {
  }

  /** A URL without a trailing slash, and the same URL with one, normalise
      to the same base, so both give the same request URLs. */
  lemma NormalizeSlashInsensitive(u: string)
    requires !EndsWith(u, "/")
    ensures NormalizeUrl(u) == u + "/"
    ensures NormalizeUrl(u + "/") == u + "/"
  {
    assert EndsWith(u + "/", "/");
  }

  /** The six-character scheme prefix of a Basic-Auth value. */
  const BasicPrefix: string := "Basic "

  /** The bytes of `user:pass` are the user's bytes, a colon, and the password's bytes. */
  lemma CredentialBytes(user: string, pass: string)
    ensures Utf8.Encode(user + ":" + pass) == Utf8.Encode(user) + [Ascii(':')] + Utf8.Encode(pass)
  {
    Utf8.EncodeAppend(user, ":" + pass);
    Utf8.EncodeAppend(":", pass);
    assert user + ":" + pass == user + (":" + pass);
    assert Utf8.Encode(":") == [Ascii(':')];
  }

  /** The proxy header: empty exactly when both proxy credentials are empty;
      otherwise `Basic ` followed by the base 64 form of the UTF-8 bytes of
      `user:pass`, which decodes back to the user's bytes, a colon and the
      password's bytes. A user with an empty password still gets a header. */
  function BasicAuth(user: string, pass: string): (r: string)
    ensures r == "" <==> user == "" && pass == ""
    ensures r != "" ==> r == BasicPrefix + Base64.Encode(Utf8.Encode(user + ":" + pass))
    ensures r != "" ==>
      |r| >= 6 && r[..6] == BasicPrefix &&
      Base64.Decode(r[6..]) == Some(Utf8.Encode(user) + [Ascii(':')] + Utf8.Encode(pass))
  {
    var credentials := user + ":" + pass;
    assert |credentials| == |user| + 1 + |pass|;
    if credentials != ":" then
      var payload := Base64.Encode(Utf8.Encode(credentials));
      CredentialBytes(user, pass);
      Base64.DecodeEncode(Utf8.Encode(credentials));
      assert (BasicPrefix + payload)[6..] == payload;
      BasicPrefix + payload
    else
      assert user == "" && pass == "" by {
        assert credentials[..|user|] == user;
      }
      ""
  }

  /** The non-I/O part of construction: the normalised URL is written back
      into the configuration, and the proxy header is derived from it. */
  function Configure(c: Config): (q: Qbit)
    ensures EndsWith(q.config.url, "/")
    ensures q.config == c.(url := q.config.url)
    ensures q.config.url == NormalizeUrl(c.url)
    ensures q.auth == "" <==> c.httpUser == "" && c.httpPass == ""
    ensures q.auth == BasicAuth(c.httpUser, c.httpPass)
  {
    Qbit(c.(url := NormalizeUrl(c.url)), BasicAuth(c.httpUser, c.httpPass))
  }
}

=== FILE: text.dfy ===
/** The handful of Go `strings` functions the client relies on:
    `TrimSuffix`, `Contains` and `Join`, each with an independent
    characterisation, plus `Split`, the inverse of `Join` used to state
    what the daemon recovers from a pipe-joined list. */
module Text {

  /** `suffix` is a tail of `s`. */
  predicate EndsWith(s: string, suffix: string) {
    |suffix| <= |s| && s[|s| - |suffix|..] == suffix
  }

  /** `strings.TrimSuffix`: drops one copy of `suffix` from the end of `s`,
      and leaves `s` alone when it does not end with it. */
  function TrimSuffix(s: string, suffix: string): (r: string)
    ensures EndsWith(s, suffix) ==> r + suffix == s
    ensures !EndsWith(s, suffix) ==> r == s
  {
    if EndsWith(s, suffix) then
      assert s[..|s| - |suffix|] + s[|s| - |suffix|..] == s;
      s[..|s| - |suffix|]
    else s
  }

  /** `sub` occurs in `s` starting at position `i`. */
  predicate OccursAt(s: string, sub: string, i: int) {
    0 <= i && i + |sub| <= |s| && s[i..i + |sub|] == sub
  }

  /** `strings.Contains`: a left-to-right scan for `sub` in `s`. */
  predicate Contains(s: string, sub: string)
    decreases |s|
  {
    if |sub| <= |s| && s[..|sub|] == sub then true
    else if |s| == 0 then false
    else Contains(s[1..], sub)
  }

  /** The scan finds `sub` exactly when `sub` occurs somewhere in `s`. */
  lemma {:induction false} ContainsIffOccurs(s: string, sub: string)
    ensures Contains(s, sub) <==> exists i :: OccursAt(s, sub, i)
    decreases |s|
  {
    if |sub| <= |s| && s[..|sub|] == sub {
      assert OccursAt(s, sub, 0);
    } else if |s| == 0 {
    } else {
      ContainsIffOccurs(s[1..], sub);
      if exists i :: OccursAt(s[1..], sub, i) {
        var i :| OccursAt(s[1..], sub, i);
        assert s[1..][i..i + |sub|] == s[i + 1..i + 1 + |sub|];
        assert OccursAt(s, sub, i + 1);
      }
      if exists i :: OccursAt(s, sub, i) {
        var i :| OccursAt(s, sub, i);
        assert i != 0;
        assert s[1..][i - 1..i - 1 + |sub|] == s[i..i + |sub|];
        assert OccursAt(s[1..], sub, i - 1);
      }
    }
  }

  /** `strings.Join`: the elements in order with `sep` between neighbours. */
  function Join(elems: seq<string>, sep: string): (r: string)
    ensures |elems| == 0 ==> r == ""
    ensures |elems| == 1 ==> r == elems[0]
    decreases |elems|
  {
    if |elems| == 0 then ""
    else if |elems| == 1 then elems[0]
    else elems[0] + sep + Join(elems[1..], sep)
  }

  /** Cuts `s` at every occurrence of the character `c`; the pieces never
      contain `c`, and there is always at least one piece. */
  function Split(s: string, c: char): (r: seq<string>)
    ensures |r| >= 1
    ensures forall i :: 0 <= i < |r| ==> c !in r[i]
    decreases |s|
  {
    if |s| == 0 then [""]
    else
      var rest := Split(s[1..], c);
      if s[0] == c then [""] + rest
      else [[s[0]] + rest[0]] + rest[1..]
  }

  /** Splitting text that holds no separator gives that text back whole. */
  lemma {:induction false} SplitWithoutSeparator(s: string, c: char)
    requires c !in s
    ensures Split(s, c) == [s]
    decreases |s|
  {
    if |s| > 0 {
      assert c !in s[1..] by {
        forall x | x in s[1..] ensures x != c {
          var j :| 0 <= j < |s[1..]| && s[1..][j] == x;
          assert s[j + 1] == x;
        }
      }
      SplitWithoutSeparator(s[1..], c);
      assert [s[0]] + s[1..] == s;
    }
  }

  /** A separator-free head followed by the separator splits off as one piece. */
  lemma {:induction false} SplitAfterHead(head: string, c: char, tail: string)
    requires c !in head
    ensures Split(head + [c] + tail, c) == [head] + Split(tail, c)
    decreases |head|
  {
    var s := head + [c] + tail;
    if |head| == 0 {
      assert s[1..] == tail;
    } else {
      assert s[1..] == head[1..] + [c] + tail;
      assert c !in head[1..] by {
        forall x | x in head[1..] ensures x != c {
          var j :| 0 <= j < |head[1..]| && head[1..][j] == x;
          assert head[j + 1] == x;
        }
      }
      SplitAfterHead(head[1..], c, tail);
      assert [head[0]] + head[1..] == head;
    }
  }

  /** Joining with a one-character separator is undone by splitting on it,
      as long as the list is non-empty and no element holds the separator. */
  lemma {:induction false} SplitJoin(elems: seq<string>, c: char)
    requires |elems| >= 1
    requires forall i :: 0 <= i < |elems| ==> c !in elems[i]
    ensures Split(Join(elems, [c]), c) == elems
    decreases |elems|
  {
    if |elems| == 1 {
      SplitWithoutSeparator(elems[0], c);
    } else {
      SplitJoin(elems[1..], c);
      SplitAfterHead(elems[0], c, Join(elems[1..], [c]));
      assert [elems[0]] + elems[1..] == elems;
    }
  }

  /** Splitting and joining back with the same character restores the text. */
  lemma {:induction false} JoinSplit(s: string, c: char)
    ensures Join(Split(s, c), [c]) == s
    decreases |s|
  {
    if |s| > 0 {
      var rest := Split(s[1..], c);
      JoinSplit(s[1..], c);
      if s[0] == c {
        assert Join([""] + rest, [c]) == "" + [c] + Join(rest, [c]);
        assert [s[0]] + s[1..] == s;
      } else {
        var parts := [[s[0]] + rest[0]] + rest[1..];
        if |rest| == 1 {
          assert Join(rest, [c]) == rest[0];
        } else {
          assert rest == [rest[0]] + rest[1..];
          assert Join(rest, [c]) == rest[0] + [c] + Join(rest[1..], [c]);
          assert parts[1..] == rest[1..];
        }
        assert [s[0]] + s[1..] == s;
      }
    }
  }
}

=== FILE: utf8.dfy ===
/** UTF-8, the byte form Go gives a string: a Go `[]byte(s)` conversion is
    modelled as `Encode(s)`. `Decode` is the partner that proves `Encode`
    loses nothing. */
module Utf8 {
  import opened Octets
  import opened Maybe

  /** A code point that is a Unicode scalar value (not a surrogate). */
  predicate IsScalar(n: int) {
    0 <= n < 0xD800 || 0xE000 <= n < 0x11_0000
  }

  /** A continuation byte, `10xxxxxx`. */
  predicate IsContinuation(b: byte) {
    0x80 <= b < 0xC0
  }

  /** The one to four bytes that encode one character. */
  function EncodeChar(c: char): (r: seq<byte>)
    ensures 1 <= |r| <= 4
    ensures |r| == 1 <==> c as int < 0x80
    ensures forall i :: 1 <= i < |r| ==> IsContinuation(r[i])
  {
    var n := c as int;
    if n < 0x80 then [n]
    else if n < 0x800 then [0xC0 + n / 64, 0x80 + n % 64]
    else if n < 0x1_0000 then [0xE0 + n / 4096, 0x80 + (n / 64) % 64, 0x80 + n % 64]
    else [0xF0 + n / 262144, 0x80 + (n / 4096) % 64, 0x80 + (n / 64) % 64, 0x80 + n % 64]
  }

  /** The bytes of a whole string, character by character. */
  function Encode(s: string): (r: seq<byte>)
    ensures |s| <= |r| <= 4 * |s|
    decreases |s|
  {
    if |s| == 0 then [] else EncodeChar(s[0]) + Encode(s[1..])
  }

  /** The character at the front of `b` and how many bytes it takes, if
      the leading byte and its continuation bytes form one. */
  function DecodeFirst(b: seq<byte>): Option<(char, nat)> {
    if |b| == 0 then None
    else if b[0] < 0x80 then Some((b[0] as char, 1))
    else if b[0] < 0xC0 then None
    else if b[0] < 0xE0 then
      if |b| < 2 || !IsContinuation(b[1]) then None
      else Scalar((b[0] as int - 0xC0) * 64 + (b[1] as int - 0x80), 2)
    else if b[0] < 0xF0 then
      if |b| < 3 || !IsContinuation(b[1]) || !IsContinuation(b[2]) then None
      else Scalar((b[0] as int - 0xE0) * 4096 + (b[1] as int - 0x80) * 64 + (b[2] as int - 0x80), 3)
    else if b[0] < 0xF8 then
      if |b| < 4 || !IsContinuation(b[1]) || !IsContinuation(b[2]) || !IsContinuation(b[3]) then None
      else Scalar((b[0] as int - 0xF0) * 262144 + (b[1] as int - 0x80) * 4096 + (b[2] as int - 0x80) * 64 + (b[3] as int - 0x80), 4)
    else None
  }

  function Scalar(n: int, len: nat): Option<(char, nat)> {
    if IsScalar(n) then Some((n as char, len)) else None
  }

  /** Reads a whole byte string back into characters; `None` when it is not
      a sequence of encoded characters. */
  function Decode(b: seq<byte>): Option<string>
    decreases |b|
  {
    if |b| == 0 then Some("")
    else match DecodeFirst(b)
      case None => None
      case Some((c, len)) =>
        if len == 0 || len > |b| then None
        else match Decode(b[len..])
          case None => None
          case Some(rest) => Some([c] + rest)
  }

  /** Each character's encoding is read back as that character, whatever follows it. */
  lemma DecodeFirstEncodeChar(c: char, rest: seq<byte>)
    ensures DecodeFirst(EncodeChar(c) + rest) == Some((c, |EncodeChar(c)|))
  {
    var n := c as int;
    var b := EncodeChar(c) + rest;
    if n < 0x80 {
    } else if n < 0x800 {
      assert (n / 64) * 64 + n % 64 == n;
    } else if n < 0x1_0000 {
      assert n / 4096 * 4096 + (n / 64) % 64 * 64 + n % 64 == n by {
        assert n / 64 == (n / 64 / 64) * 64 + (n / 64) % 64;
        assert n / 64 / 64 == n / 4096;
      }
    } else {
      assert n / 262144 * 262144 + (n / 4096) % 64 * 4096 + (n / 64) % 64 * 64 + n % 64 == n by {
        assert n / 64 == (n / 64 / 64) * 64 + (n / 64) % 64;
        assert n / 64 / 64 == n / 4096;
        assert n / 4096 == (n / 4096 / 64) * 64 + (n / 4096) % 64;
        assert n / 4096 / 64 == n / 262144;
      }
    }
  }

  /** Encoding and then decoding gives the string back. */
  lemma {:induction false} DecodeEncode(s: string)
    ensures Decode(Encode(s)) == Some(s)
    decreases |s|
  {
    if |s| > 0 {
      var head := EncodeChar(s[0]);
      DecodeFirstEncodeChar(s[0], Encode(s[1..]));
      DecodeEncode(s[1..]);
      assert (head + Encode(s[1..]))[|head|..] == Encode(s[1..]);
      assert [s[0]] + s[1..] == s;
    }
  }

  /** Encoding distributes over concatenation. */
  lemma {:induction false} EncodeAppend(a: string, b: string)
    ensures Encode(a + b) == Encode(a) + Encode(b)
    decreases |a|
  {
    if |a| > 0 {
      assert (a + b)[0] == a[0];
      assert (a + b)[1..] == a[1..] + b;
      EncodeAppend(a[1..], b);
    } else {
      assert a + b == b;
    }
  }
}
